=== FILE: README.md ===
# Goodreads reading-history metrics

This project models the data pipeline of `goodreads_app.py`, a small
Streamlit app that loads a Goodreads export and reports figures about it.
The export is a table of books. The app adds two derived columns:

- `Year Finished`, the year of `Date Read`;
- `days_to_finish`, whole days from `Date Added` to `Date Read`.

It then selects three row views with boolean masks:

- the finished books with a non-negative duration;
- the rated books;
- the books on the "read" shelf.

From the table and these views it computes:

- books per finish year and per publication year, as grouped counts;
- the most common finish year;
- the average time to finish;
- the average page count;
- whether the reader's ratings sit below or above other readers' ratings, and by how much;
- the number of distinct books and authors read, and the most read author.

The model works on rows whose dates are already parsed. A date is a proleptic
Gregorian calendar date. An empty date cell is `None`, just as pandas' `NaT`
is. Date text that does not parse makes `pd.to_datetime` raise (its default is
`errors="raise"`), so the model has no row for it. A computation that pandas
turns into NaN returns `None` in the model. So does one that raises, such as
`int(nan)` or `mode()[0]` of an empty series. In the script a raise ends the
run, and the figures computed after it are never shown. The model computes
every figure on its own, so each one is stated for every table. Arithmetic is
on exact integers and reals.

Modules:

- `Seqs`: the column operations the pipeline relies on.
  - `Map`, `Filter`, `Defined` (pandas dropping NaN), `Unique`, `DistinctCount`.
- `Calendar`: dates and the day count that timestamp subtraction works in.
- `Books`: the row record, its two derived columns and the three views.
- `Grouping`: `groupby(...).count()` as an ascending table of (key, count) buckets.
- `Modes`: `Series.mode()[0]`.
  - pandas returns every most frequent value, sorted ascending, and index 0 takes the smallest.
- `Means`: `mean()`, `.round(2)` (numpy rounds half to even) and `int()` (truncation).
- `Report`: the figures the app reports.
- `Scenario`: a worked three-row table, with each reported figure computed on it.

Details of the script that the model keeps:

- The label strings are `"bajo"` and `"alto"`.
- The label is decided on the difference after rounding to two decimals. So a
  difference in [-0.005, 0) is labelled `"alto"`.
- Ties for the most read author go to the alphabetically first author, by code
  point, not to the first author met in the table. pandas sorts the tied values
  and `[0]` takes the first.
- Ties for the most common finish year go to the earliest year.
- With no rated book, `np.mean` of the empty columns is a plain float NaN, which
  has no `.round` method, so the script stops at goodreads_app.py:134-136 before
  choosing a label. The model gives neither a difference nor a label.

## Model

| member | source | states |
|---|---|---|
| Books.Record.FinishYear | goodreads_app.py:51 | `Year Finished` is defined exactly when `Date Read` is, and is then that date's year |
| Books.Record.DaysToFinish | goodreads_app.py:67-69 | defined exactly when both dates are present; then the difference of the two dates' day counts, negative exactly when the book was marked read before it was added, zero exactly when both are the same day |
| Books.ReadDayLater | goodreads_app.py:67-69 | reading one calendar day later makes the duration exactly one day longer |
| Books.AddedDayLater | goodreads_app.py:67-69 | adding the book one calendar day later makes the duration exactly one day shorter |
| Calendar.DayNumberOrder | goodreads_app.py:67-69 | the day count used for the subtraction orders dates chronologically and distinguishes them (strictly smaller iff earlier, equal iff same date) |
| Calendar.DayNumberNextDay | goodreads_app.py:67-69 | consecutive calendar days are exactly one day apart, so the subtraction counts calendar days |
| Calendar.NextDay | goodreads_app.py:67-69 | the next calendar day is a valid date strictly after the given one |
| Calendar.YearLength | goodreads_app.py:67-69 | the days of a year follow the Gregorian leap rule |
| Calendar.QuotRem | goodreads_app.py:67-69 | the quotient and remainder used by the leap rule and the day count are Euclidean division |
| Scenario.EpochDayNumber | goodreads_app.py:67-69 | on 1970-01-01 and 2000-03-01 the day count equals Python's `toordinal()` minus one, so differences of day counts are Python's date differences |
| Books.FinishedDurationView | goodreads_app.py:76-78 | keeps rows in table order; a row is kept iff its shelf is "read" and its duration is defined and not negative; kept rows keep their multiplicity |
| Books.RatedView | goodreads_app.py:123 | keeps rows in table order; a row is kept iff `My Rating` is not 0; kept rows keep their multiplicity |
| Books.CompletedView | goodreads_app.py:154 | keeps rows in table order; a row is kept iff its shelf is "read"; kept rows keep their multiplicity |
| Books.FinishedWithinCompleted | goodreads_app.py:76-78 | the finished-duration view is the completed view restricted to valid durations (the two masks compose) |
| Books.AppendUnratedKeepsRatedView | goodreads_app.py:123 | a row with rating 0 never enters the rated view |
| Grouping.GroupByKey | goodreads_app.py:53 | groups are ascending by key, each non-empty; a key has a group iff some row has that key; each count is the number of rows with the key; rows with NaN keys are counted nowhere |
| Grouping.GroupByKeyReorder | goodreads_app.py:53 | the grouped count depends only on the multiset of keys, not on their order |
| Grouping.GroupByKeySkipsAbsent | goodreads_app.py:53 | a row with a NaN key changes no group |
| Grouping.Insert | goodreads_app.py:53 | counting one more row keeps the table ascending and adds exactly one to the key's count and to the total |
| Grouping.GroupCount | goodreads_app.py:53 | the keys are the distinct values, each count is the value's multiplicity, and the counts sum to the number of rows |
| Report.BooksPerYear | goodreads_app.py:51-54 | one bucket per year in which some book was finished, ascending, each count the number of rows finished that year; the total is the number of rows with `Date Read` |
| Report.BooksPerPublicationYear | goodreads_app.py:100-103 | one bucket per publication year present, ascending, counts as above; the total is the number of rows with a publication year |
| Report.GroupsIgnoreRowOrder | goodreads_app.py:53 | reordering the table changes neither grouped count |
| Report.UnreadRowNotGrouped | goodreads_app.py:51-53 | a row without `Date Read` adds nothing to books per year |
| Modes.Mode | goodreads_app.py:157 | absent iff the column is empty; otherwise a value of the column occurring at least as often as any other, and the least under the given order among those as frequent |
| Modes.ModeAmong | goodreads_app.py:157 | the selected candidate is one of the candidates, the most frequent among them, and the least among equally frequent ones |
| Modes.ModeIgnoresOrder | goodreads_app.py:157 | with an antisymmetric order the mode depends only on the counts, not on row order |
| Modes.StrLeIsTotalPreorder | goodreads_app.py:157 | Python's string order is total, transitive and antisymmetric, so the sorted ties have one first element |
| Report.ModeYearFinished | goodreads_app.py:173 | absent iff no row has `Date Read` (where `int(mode()[0])` fails); otherwise a finish year of some row, at least as frequent as every year, the earliest among equally frequent years |
| Report.ModeYearHasLargestGroup | goodreads_app.py:173 | the most common finish year is a key of the books-per-year table whose count is the largest; it is absent exactly when that table is empty |
| Report.ModeYearIgnoresRowOrder | goodreads_app.py:173 | reordering the table does not change the most common finish year |
| Report.ModeAuthor | goodreads_app.py:154-157 | absent iff no book is on the "read" shelf; otherwise the author of some read row, at least as frequent as every author, and alphabetically first among equally frequent authors |
| Report.ModeAuthorIgnoresRowOrder | goodreads_app.py:157 | reordering the table does not change the most read author |
| Report.UniqueBooks | goodreads_app.py:155 | the number of distinct book ids of the read rows; at most the number of read rows; zero iff there are none |
| Report.UniqueAuthors | goodreads_app.py:156 | the number of distinct author strings of the read rows; at most the number of read rows; zero iff there are none |
| Seqs.DistinctCount | goodreads_app.py:155-156 | `len(unique())` is the size of the set of values, at most the length, zero iff empty |
| Report.FinishedDays | goodreads_app.py:180 | the duration column of the finished-duration view, one defined non-negative value per row |
| Report.MeanDaysToFinish | goodreads_app.py:180 | absent iff the finished-duration view is empty; otherwise the average: one copy per finished book adds up to the total of the durations; it lies between the shortest and the longest duration, hence is not negative |
| Report.MeanDaysReported | goodreads_app.py:180 | `int(mean)`: absent iff the view is empty; otherwise the average duration with its fraction dropped, a whole non-negative number of days between the shortest and the longest duration |
| Report.PageCounts | goodreads_app.py:186 | the `Number of Pages` values of the table with missing ones skipped: each page count occurs as often as rows carry it; non-empty iff some row has a page count |
| Report.AveragePages | goodreads_app.py:186 | `int(mean)` of the page counts, skipping missing ones: absent iff no row has a page count; otherwise the mean of the page counts with its fraction dropped, between the smallest and the largest page count |
| Means.Mean | goodreads_app.py:134-135 | absent iff the column is empty; otherwise the value whose copies, one per element, add up to the column's sum, between its smallest and largest value |
| Means.TimesIsProduct | goodreads_app.py:134-135 | adding up `n` copies of a value is multiplying it by `n`, so the mean is the sum divided by the count |
| Means.IntMean | goodreads_app.py:180 | the mean of whole numbers: absent iff the column is empty; otherwise its copies, one per element, add up to the sum, and it lies between two of the column's values |
| Means.MeanWithin | goodreads_app.py:180 | a mean never leaves the range of the values it averages |
| Means.TruncatedMean | goodreads_app.py:180 | `int()` of a mean of non-negative whole numbers is absent iff the column is empty, otherwise the mean with its fraction dropped, a whole number between two of the column's values |
| Means.Truncate | goodreads_app.py:180 | `int()` truncates toward zero |
| Means.RoundHalfEven | goodreads_app.py:136 | the nearest whole number, an even one on a tie |
| Means.Round2 | goodreads_app.py:134-136 | `round(2)` gives a whole number of hundredths at most half a hundredth away, an even number of hundredths on a tie |
| Means.RoundedToHundredthsUnique | goodreads_app.py:136 | that description of rounding to two decimals admits exactly one result |
| Means.Round2Negative | goodreads_app.py:136-137 | the rounded value is negative exactly when the unrounded one is below -0.005 |
| Report.MeanGap | goodreads_app.py:134-135 | the difference of means is absent (NaN) exactly for an empty view; otherwise one copy per row adds up to the reader's rating total minus the public's |
| Report.RatingGap | goodreads_app.py:123-135 | absent exactly when no book is rated; otherwise one copy per rated book adds up to the reader's ratings total minus the public's over the rated books |
| Report.AvgDifference | goodreads_app.py:134-136 | absent exactly when no book is rated; otherwise the difference of means rounded to two decimals: a whole number of hundredths at most half a hundredth away, even on a tie |
| Report.RatingLabel | goodreads_app.py:134-140 | there is a label exactly when some book is rated, and it is "bajo" or "alto" |
| Report.RatingLabelFromGap | goodreads_app.py:134-140 | the label is "bajo" exactly when the unrounded difference is below -0.005 and "alto" exactly when it is at least -0.005; zero and differences in [-0.005, 0) read "alto" |
| Report.UnratedRowKeepsComparison | goodreads_app.py:123-140 | a row with rating 0 changes neither the rounded difference nor the label |
| Report.SameRatedViewSameComparison | goodreads_app.py:123-140 | two tables with the same rated view have the same rounded difference and the same label |
| Scenario.SampleViews | goodreads_app.py:76-154 | on the three-row table the finished-duration view (lines 76-78), the rated view (line 123) and the completed view (line 154) each hold the first two rows, in table order |
| Scenario.SampleBooksPerYear | goodreads_app.py:53-54 | on the three-row table, books per year is [(2019, 1), (2020, 1)] |
| Scenario.SampleBooksPerPublicationYear | goodreads_app.py:100-103 | on the three-row table books per publication year is [(1990, 1), (2000, 1), (2010, 1)] |
| Scenario.SampleDuration | goodreads_app.py:67-80 | on the three-row table the durations are [10, 0] and the mean is 5 days |
| Scenario.SampleRatingGap | goodreads_app.py:123-135 | on the three-row table the mean ratings are 4.5 and 3.75, so the difference is 0.75 |
| Scenario.SampleRatings | goodreads_app.py:134-140 | 0.75 survives rounding to two decimals, and a positive difference is labelled "alto" |
| Scenario.SampleModeYear | goodreads_app.py:173 | with 2019 and 2020 tied, the most common finish year is 2019 |
| Scenario.SampleModeAuthor | goodreads_app.py:157 | with Austen and Borges tied, the most read author is Austen |
| Scenario.SampleUniqueBooks | goodreads_app.py:155 | two distinct books were read |
| Scenario.SampleUniqueAuthors | goodreads_app.py:156 | the two read books have two distinct authors |
| Scenario.SamplePages | goodreads_app.py:186 | the average page count over the whole table is 200 |

## Left out

- Streamlit page layout, the file uploader, all plotly figures and the text output: these are presentation. The histograms only draw columns that are modelled here.
- The decorative animation fetched over the network (`load_lottieurl`): it is I/O and outside the pipeline.
- Reading the CSV and parsing date text: the model starts from rows with parsed dates. An empty date cell is `None`. Date text that does not parse makes `pd.to_datetime` raise, and the model has no row for such a table.
- Stopping at the first raise: in the script, a failing figure ends the run, so the figures after it are not computed. For example, with no book on the "read" shelf `mode()[0]` at goodreads_app.py:157 raises and lines 173, 180 and 186 never run. The model reports `None` for the failing figure and computes every other figure anyway.
- The `Title` column and every column the app does not use.
- `Book Id`, `Author`, `My Rating` and `Average Rating` are assumed present in every row. `count()` counts non-null `Book Id` values, so a row with a null id would be missing from its group's count. `unique()` would count a null author as one more value, and `mode()` would skip it. A NaN `My Rating` passes the `!= 0` mask, and then the `My Rating` mean skips it but the `Average Rating` mean does not, so the two means would average over different rows. A NaN `Average Rating` would be skipped by its mean alone in the same way. Goodreads exports always fill these columns.
- Dates outside pandas' nanosecond timestamp range (about 1677-09-21 to 2262-04-11): `pd.to_datetime` raises `OutOfBoundsDatetime` for them, while `Calendar.Date` accepts any year. The model describes such a table as if it had parsed.
- The 1850 to 2021 x-axis window of the publication-year chart: it only changes what is drawn, not the grouped counts.
- Floating point: the model computes means and rounding on exact reals. Results that differ only by float rounding error are not modelled.
- Means.TruncatedMean: requires its values to be non-negative, which holds for durations after the `>= 0` filter and for page counts. The model does not describe `int()` of a negative mean.
- Report.RatingLabel: its own contract only says when there is a label and that it is one of the two strings; which one is stated by Report.RatingLabelFromGap. With no rated book the script raises before a label exists; the model's `None` stands for that.

=== FILE: books.dfy ===
/** One row of the reading-history table, the two derived columns the script
    adds to it (`Year Finished`, `days_to_finish`) and the three row views
    it selects with boolean masks. */
module Books {
  import opened Seqs
  import opened Calendar

  /** A row of the export, with its dates already parsed. An empty date cell
      is `None`, as `pd.to_datetime` yields NaT for it; date text that does
      not parse makes `pd.to_datetime` raise, so no row stands for it. */
  datatype Record = Record(
    bookId: string,
    author: string,
    shelf: string,
    dateAdded: Option<Date>,
    dateRead: Option<Date>,
    pages: Option<nat>,
    pubYear: Option<int>,
    myRating: int,
    avgRating: real)
  {
    /** `Year Finished`: the year of `Date Read`, NaN when it is absent. */
    function FinishYear(): (y: Option<int>)
      ensures y.Some? <==> dateRead.Some?
      ensures y.Some? ==> y.value == dateRead.value.year
    {
      match dateRead
      case None => None
      case Some(d) => Some(d.year)
    }

    /** `days_to_finish`: whole days from `Date Added` to `Date Read`, NaN
        unless both dates are present. It may be negative: it is negative
        exactly when the book was marked read before it was added, and zero
        exactly when both dates are the same day. */
    function DaysToFinish(): (n: Option<int>)
      ensures n.Some? <==> dateRead.Some? && dateAdded.Some?
      ensures n.Some? ==> (n.value < 0 <==> Precedes(dateRead.value, dateAdded.value))
      ensures n.Some? ==> (n.value == 0 <==> dateRead.value == dateAdded.value)
      ensures n.Some? ==> n.value == DayNumber(dateRead.value) - DayNumber(dateAdded.value)
    {
      match (dateRead, dateAdded)
      case (Some(r), Some(a)) =>
        DayNumberOrder(r, a);
        Some(DayNumber(r) - DayNumber(a))
      case _ => None
    }
  }

  /** Reading one calendar day later takes exactly one more day. */
  lemma ReadDayLater(r: Record)
    requires r.dateRead.Some? && r.dateAdded.Some?
    ensures r.(dateRead := Some(NextDay(r.dateRead.value))).DaysToFinish() == Some(r.DaysToFinish().value + 1)
  {
    DayNumberNextDay(r.dateRead.value);
  }

  /** Adding the book one calendar day later takes exactly one day off. */
  lemma AddedDayLater(r: Record)
    requires r.dateRead.Some? && r.dateAdded.Some?
    ensures r.(dateAdded := Some(NextDay(r.dateAdded.value))).DaysToFinish() == Some(r.DaysToFinish().value - 1)
  {
    DayNumberNextDay(r.dateAdded.value);
  }

  /** `Exclusive Shelf == "read"`. */
  predicate IsCompleted(r: Record) {
    r.shelf == "read"
  }

  /** `days_to_finish >= 0`; a NaN duration compares false. */
  predicate HasValidDuration(r: Record) {
    r.DaysToFinish().Some? && r.DaysToFinish().value >= 0
  }

  /** `My Rating != 0`. */
  predicate IsRated(r: Record) {
    r.myRating != 0
  }

  predicate IsFinishedWithDuration(r: Record) {
    IsCompleted(r) && HasValidDuration(r)
  }

  /** `books_finished_filtered`: read books whose duration is defined and
      not negative, in table order. */
  function FinishedDurationView(t: seq<Record>): (v: seq<Record>)
    ensures IsSubsequence(v, t)
    ensures forall r :: r in v ==> r.shelf == "read" && r.DaysToFinish().Some? && r.DaysToFinish().value >= 0
    ensures forall r :: r in t && r.shelf == "read" && r.DaysToFinish().Some? && r.DaysToFinish().value >= 0 ==> r in v
    ensures forall r :: r in v ==> multiset(v)[r] == multiset(t)[r]
  {
    Filter(t, IsFinishedWithDuration)
  }

  /** `books_rated`: the rows with a personal rating. */
  function RatedView(t: seq<Record>): (v: seq<Record>)
    ensures IsSubsequence(v, t)
    ensures forall r :: r in v <==> r in t && r.myRating != 0
    ensures forall r :: r in v ==> multiset(v)[r] == multiset(t)[r]
  {
    Filter(t, IsRated)
  }

  /** `books_finished`: the rows on the "read" shelf. */
  function CompletedView(t: seq<Record>): (v: seq<Record>)
    ensures IsSubsequence(v, t)
    ensures forall r :: r in v <==> r in t && r.shelf == "read"
    ensures forall r :: r in v ==> multiset(v)[r] == multiset(t)[r]
  {
    Filter(t, IsCompleted)
  }

  /** The finished-duration view is the completed view further restricted
      to valid durations: the two masks compose by conjunction. */
  lemma {:induction false} FinishedWithinCompleted(t: seq<Record>)
    ensures FinishedDurationView(t) == Filter(CompletedView(t), HasValidDuration)
    decreases |t|
  {
    if |t| > 0 {
      FinishedWithinCompleted(t[1..]);
    }
  }

  /** Appending a row without a personal rating leaves the rated view as it was. */
  lemma AppendUnratedKeepsRatedView(t: seq<Record>, r: Record)
    requires r.myRating == 0
    ensures RatedView(t + [r]) == RatedView(t)
  {
    FilterAppend(t, [r], IsRated);
  }
}

=== FILE: calendar.dfy ===
/** Proleptic Gregorian calendar dates and the day count that the dataframe's
    timestamp subtraction `(Date Read - Date Added).dt.days` works in. */
module Calendar {

  datatype CalendarDate = CalendarDate(year: int, month: int, day: int)
  {
    /** A real day of the proleptic Gregorian calendar. */
    predicate Valid() {
      1 <= month <= 12 && 1 <= day <= DaysInMonth(year, month)
    }
  }

  /** A parsed date: only real calendar days can come out of date parsing. */
  type Date = d: CalendarDate | d.Valid() witness CalendarDate(1970, 1, 1)

  /** Floor quotient of `a` by a positive `k`, by repeated subtraction; it
      agrees with `a / k` (see `QuotRem`). */
  function Quot(a: int, k: int): int
    requires k > 0
    decreases if a < 0 then k - a else a
  {
    if a < 0 then Quot(a + k, k) - 1
    else if a >= k then Quot(a - k, k) + 1
    else 0
  }

  /** Remainder of `a` by a positive `k`, in `[0, k)`; it agrees with `a % k`. */
  function Rem(a: int, k: int): int
    requires k > 0
    decreases if a < 0 then k - a else a
  {
    if a < 0 then Rem(a + k, k)
    else if a >= k then Rem(a - k, k)
    else a
  }

  /** `Quot` and `Rem` are Euclidean division: `a == q * k + r` with
      `0 <= r < k`. */
  lemma {:induction false} QuotRem(a: int, k: int)
    requires k > 0
    ensures Quot(a, k) * k + Rem(a, k) == a
    ensures 0 <= Rem(a, k) < k
    decreases if a < 0 then k - a else a
  {
    if a < 0 {
      QuotRem(a + k, k);
      assert (Quot(a + k, k) - 1) * k == Quot(a + k, k) * k - k;
    } else if a >= k {
      QuotRem(a - k, k);
      assert (Quot(a - k, k) + 1) * k == Quot(a - k, k) * k + k;
    }
  }

  /** The Gregorian leap rule: every fourth year, except centuries not
      divisible by 400. */
  predicate IsLeapYear(y: int) {
    Rem(y, 4) == 0 && (Rem(y, 100) != 0 || Rem(y, 400) == 0)
  }

  function DaysInYear(y: int): int {
    if IsLeapYear(y) then 366 else 365
  }

  function DaysInMonth(y: int, m: int): int
    requires 1 <= m <= 12
  {
    if m == 2 then (if IsLeapYear(y) then 29 else 28)
    else if m == 4 || m == 6 || m == 9 || m == 11 then 30
    else 31
  }

  /** Days of a common year before the first of each month. */
  const CumulativeDays: seq<int> := [0, 31, 59, 90, 120, 151, 181, 212, 243, 273, 304, 334]

  function DaysBeforeMonth(y: int, m: int): int
    requires 1 <= m <= 12
  {
    CumulativeDays[m - 1] + (if m > 2 && IsLeapYear(y) then 1 else 0)
  }

  /** Days from 0001-01-01 to the first of January of year `y` (negative
      before year 1): 365 per year plus one per leap year before `y`. */
  function DaysBeforeYear(y: int): int {
    365 * (y - 1) + Quot(y - 1, 4) - Quot(y - 1, 100) + Quot(y - 1, 400)
  }

  /** Day number of a date, counting 0001-01-01 as day 0. */
  function DayNumber(d: Date): int {
    DaysBeforeYear(d.year) + DaysBeforeMonth(d.year, d.month) + d.day - 1
  }

  /** Strict chronological order, stated on the calendar fields alone. */
  predicate Precedes(a: CalendarDate, b: CalendarDate) {
    || a.year < b.year
    || (a.year == b.year && a.month < b.month)
    || (a.year == b.year && a.month == b.month && a.day < b.day)
  }

  /** The calendar day after `d`. */
  function NextDay(d: Date): (n: Date)
    ensures Precedes(d, n)
  {
    if d.day < DaysInMonth(d.year, d.month) then CalendarDate(d.year, d.month, d.day + 1)
    else if d.month < 12 then CalendarDate(d.year, d.month + 1, 1)
    else CalendarDate(d.year + 1, 1, 1)
  }

  /** A year has as many days as the Gregorian leap rule says. */
  lemma YearLength(y: int)
    ensures DaysBeforeYear(y + 1) == DaysBeforeYear(y) + DaysInYear(y)
  {
    DivStep4(y);
    DivStep100(y);
    DivStep400(y);
    Divisibility(y);
  }

  /** A multiple of 400 is a multiple of 100, which is a multiple of 4. */
  lemma Divisibility(y: int)
    ensures Rem(y, 100) == 0 ==> Rem(y, 4) == 0
    ensures Rem(y, 400) == 0 ==> Rem(y, 100) == 0
  {
    QuotRem(y, 4);
    QuotRem(y, 100);
    QuotRem(y, 400);
  }

  lemma DivStep4(y: int)
    ensures Quot(y, 4) - Quot(y - 1, 4) == if Rem(y, 4) == 0 then 1 else 0
  {
    QuotRem(y, 4);
    QuotRem(y - 1, 4);
  }

  lemma DivStep100(y: int)
    ensures Quot(y, 100) - Quot(y - 1, 100) == if Rem(y, 100) == 0 then 1 else 0
  {
    QuotRem(y, 100);
    QuotRem(y - 1, 100);
  }

  lemma DivStep400(y: int)
    ensures Quot(y, 400) - Quot(y - 1, 400) == if Rem(y, 400) == 0 then 1 else 0
  {
    QuotRem(y, 400);
    QuotRem(y - 1, 400);
  }

  /** The months of a year fill it exactly. */
  lemma MonthsFillYear(y: int, m: int)
    requires 1 <= m <= 12
    ensures DaysBeforeMonth(y, m) + DaysInMonth(y, m) == if m < 12 then DaysBeforeMonth(y, m + 1) else DaysInYear(y)
  {
  }

  /** Consecutive calendar days have consecutive day numbers. */
  lemma DayNumberNextDay(d: Date)
    ensures DayNumber(NextDay(d)) == DayNumber(d) + 1
  {
    MonthsFillYear(d.year, d.month);
    if d.day == DaysInMonth(d.year, d.month) && d.month == 12 {
      YearLength(d.year);
    }
  }

  /** A date's day number lies within its year. */
  lemma DayNumberInYear(d: Date)
    ensures DaysBeforeYear(d.year) <= DayNumber(d) < DaysBeforeYear(d.year + 1)
  {
    MonthsFillYear(d.year, d.month);
    MonthsBefore(d.year, d.month, 12);
    MonthsFillYear(d.year, 12);
    YearLength(d.year);
  }

  lemma {:induction false} MonthsBefore(y: int, m1: int, m2: int)
    requires 1 <= m1 <= m2 <= 12
    ensures DaysBeforeMonth(y, m1) + (if m1 < m2 then DaysInMonth(y, m1) else 0) <= DaysBeforeMonth(y, m2)
    decreases m2 - m1
  {
    if m1 < m2 {
      MonthsFillYear(y, m1);
      MonthsBefore(y, m1 + 1, m2);
    }
  }

  lemma {:induction false} YearsBefore(y1: int, y2: int)
    requires y1 <= y2
    ensures DaysBeforeYear(y1) <= DaysBeforeYear(y2)
    decreases y2 - y1
  {
    if y1 < y2 {
      YearLength(y1);
      YearsBefore(y1 + 1, y2);
    }
  }

  /** The day number orders dates chronologically and tells them apart:
      the difference of day numbers is negative exactly when the later
      argument is the earlier date, and zero exactly on the same date. */
  lemma DayNumberOrder(a: Date, b: Date)
    ensures Precedes(a, b) <==> DayNumber(a) < DayNumber(b)
    ensures a == b <==> DayNumber(a) == DayNumber(b)
  {
    if Precedes(a, b) {
      PrecedesBelow(a, b);
    } else if Precedes(b, a) {
      PrecedesBelow(b, a);
    }
  }

  lemma PrecedesBelow(a: Date, b: Date)
    requires Precedes(a, b)
    ensures DayNumber(a) < DayNumber(b)
  {
    if a.year < b.year {
      DayNumberInYear(a);
      DayNumberInYear(b);
      YearsBefore(a.year + 1, b.year);
    } else if a.month < b.month {
      MonthsBefore(a.year, a.month, b.month);
    }
  }
}

=== FILE: grouping.dfy ===
/** `df.groupby(key)[col].count().reset_index()` on an integer key column:
    one (key, count) row per distinct defined key, keys ascending (pandas
    sorts group keys by default and drops NaN keys). */
module Grouping {
  import opened Seqs

  /** One output row of the grouped count. */
  datatype Bucket = Bucket(key: int, count: nat)

  /** Keys strictly ascending, so also pairwise distinct. */
  ghost predicate Ascending(g: seq<Bucket>) {
    forall i, j :: 0 <= i < j < |g| ==> g[i].key < g[j].key
  }

  /** Every bucket holds at least one row. */
  ghost predicate Positive(g: seq<Bucket>) {
    forall i :: 0 <= i < |g| ==> g[i].count >= 1
  }

  /** The values of the key column. */
  function Keys(g: seq<Bucket>): set<int>
    decreases |g|
  {
    if |g| == 0 then {} else {g[0].key} + Keys(g[1..])
  }

  lemma {:induction false} KeysAt(g: seq<Bucket>, i: int)
    requires 0 <= i < |g|
    ensures g[i].key in Keys(g)
    decreases i
  {
    if i > 0 {
      KeysAt(g[1..], i - 1);
    }
  }

  /** Every key of an ascending table after the first exceeds the first. */
  lemma {:induction false} KeysAfterHead(g: seq<Bucket>, x: int)
    requires Ascending(g) && |g| > 0
    requires x in Keys(g[1..])
    ensures g[0].key < x
    decreases |g|
  {
    if x != g[1].key {
      KeysAfterHead(g[1..], x);
    }
  }

  /** The count recorded for `k`, 0 when there is no bucket for it. */
  function Lookup(g: seq<Bucket>, k: int): nat
    decreases |g|
  {
    if |g| == 0 then 0
    else if g[0].key == k then g[0].count
    else Lookup(g[1..], k)
  }

  /** Sum of the `Count` column. */
  function Total(g: seq<Bucket>): nat
    decreases |g|
  {
    if |g| == 0 then 0 else g[0].count + Total(g[1..])
  }

  /** Below the first key of an ascending table nothing is recorded. */
  lemma {:induction false} LookupBelow(g: seq<Bucket>, k: int)
    requires Ascending(g)
    requires |g| > 0 ==> k < g[0].key
    ensures Lookup(g, k) == 0
    decreases |g|
  {
    if |g| > 1 {
      LookupBelow(g[1..], k);
    }
  }

  /** In an ascending table each bucket is the one `Lookup` finds. */
  lemma {:induction false} LookupAt(g: seq<Bucket>, i: int)
    requires Ascending(g)
    requires 0 <= i < |g|
    ensures Lookup(g, g[i].key) == g[i].count
    decreases i
  {
    if i > 0 {
      LookupAt(g[1..], i - 1);
    }
  }

  /** Keys without a bucket have count 0; keys with one have a positive count. */
  lemma {:induction false} LookupKeys(g: seq<Bucket>, k: int)
    requires Ascending(g) && Positive(g)
    ensures k in Keys(g) <==> Lookup(g, k) > 0
    decreases |g|
  {
    if |g| > 0 {
      LookupKeys(g[1..], k);
      assert Keys(g) == {g[0].key} + Keys(g[1..]);
    }
  }

  /** Counts one more row with key `k`. */
  function Insert(g: seq<Bucket>, k: int): (h: seq<Bucket>)
    requires Ascending(g) && Positive(g)
    ensures Ascending(h) && Positive(h)
    ensures Keys(h) == Keys(g) + {k}
    ensures forall x :: Lookup(h, x) == Lookup(g, x) + (if x == k then 1 else 0)
    ensures Total(h) == Total(g) + 1
    decreases |g|
  {
    if |g| == 0 then
      Prepend(Bucket(k, 1), []);
      [Bucket(k, 1)]
    else if k < g[0].key then
      LookupBelow(g, k);
      Prepend(Bucket(k, 1), g);
      PrependAscending(Bucket(k, 1), g);
      [Bucket(k, 1)] + g
    else
      Prepend(g[0], g[1..]);
      assert [g[0]] + g[1..] == g;
      if k == g[0].key then
        Prepend(Bucket(k, g[0].count + 1), g[1..]);
        PrependAscending(Bucket(k, g[0].count + 1), g[1..]);
        [Bucket(k, g[0].count + 1)] + g[1..]
      else
        var t := Insert(g[1..], k);
        InsertAfterHead(g, k, t);
        Prepend(g[0], t);
        PrependAscending(g[0], t);
        [g[0]] + t
  }

  /** What a bucket put in front of a table adds to it. */
  lemma Prepend(b: Bucket, g: seq<Bucket>)
    ensures Keys([b] + g) == {b.key} + Keys(g)
    ensures forall x :: Lookup([b] + g, x) == if x == b.key then b.count else Lookup(g, x)
    ensures Total([b] + g) == b.count + Total(g)
    ensures Positive(g) && b.count >= 1 ==> Positive([b] + g)
  {
    assert ([b] + g)[1..] == g;
  }

  /** A bucket below every key of an ascending table can head it. */
  lemma PrependAscending(b: Bucket, g: seq<Bucket>)
    requires Ascending(g)
    requires forall j :: 0 <= j < |g| ==> b.key < g[j].key
    ensures Ascending([b] + g)
  {
    var h := [b] + g;
    forall i, j | 0 <= i < j < |h|
      ensures h[i].key < h[j].key
    {
      assert h[j] == g[j - 1];
      if i > 0 {
        assert h[i] == g[i - 1];
      }
    }
  }

  /** Every key inserted after the head of an ascending table lies above it. */
  lemma InsertAfterHead(g: seq<Bucket>, k: int, t: seq<Bucket>)
    requires Ascending(g) && |g| > 0 && g[0].key < k
    requires Keys(t) == Keys(g[1..]) + {k}
    ensures forall j :: 0 <= j < |t| ==> g[0].key < t[j].key
  {
    forall j | 0 <= j < |t|
      ensures g[0].key < t[j].key
    {
      KeysAt(t, j);
      if t[j].key != k {
        KeysAfterHead(g, t[j].key);
      }
    }
  }

  /** Grouped count of a column of defined keys. */
  function GroupCount(xs: seq<int>): (g: seq<Bucket>)
    ensures Ascending(g) && Positive(g)
    ensures Keys(g) == set x | x in xs
    ensures forall k :: Lookup(g, k) == multiset(xs)[k]
    ensures Total(g) == |xs|
    decreases |xs|
  {
    if |xs| == 0 then []
    else
      var init := xs[..|xs| - 1];
      assert xs == init + [xs[|xs| - 1]];
      Insert(GroupCount(init), xs[|xs| - 1])
  }

  /** Grouped count of a key column that may hold NaN: the rows with an
      absent key form no group, every other row is counted under its key. */
  function GroupByKey(keys: seq<Option<int>>): (g: seq<Bucket>)
    ensures Ascending(g) && Positive(g)
    ensures forall k :: k in Keys(g) <==> Some(k) in keys
    ensures forall i :: 0 <= i < |g| ==> g[i].count == multiset(keys)[Some(g[i].key)]
    ensures forall k :: Lookup(g, k) == multiset(keys)[Some(k)]
    ensures Total(g) == |keys| - multiset(keys)[None]
  {
    var g := GroupCount(Defined(keys));
    forall i | 0 <= i < |g|
      ensures g[i].count == multiset(keys)[Some(g[i].key)]
    {
      LookupAt(g, i);
    }
    g
  }

  /** A key recorded in an ascending table is at least its first key. */
  lemma HeadIsLeastKey(g: seq<Bucket>, k: int)
    requires Ascending(g) && |g| > 0
    requires Lookup(g, k) > 0
    ensures g[0].key <= k
  {
    if k < g[0].key {
      LookupBelow(g, k);
    }
  }

  /** Two ascending tables of positive counts that agree on every lookup are
      the same table. */
  lemma {:induction false} AscendingUnique(a: seq<Bucket>, b: seq<Bucket>)
    requires Ascending(a) && Positive(a)
    requires Ascending(b) && Positive(b)
    requires forall k :: Lookup(a, k) == Lookup(b, k)
    ensures a == b
    decreases |a| + |b|
  {
    if |a| > 0 {
      assert Lookup(b, a[0].key) == Lookup(a, a[0].key) == a[0].count;
    }
    if |b| > 0 {
      assert Lookup(a, b[0].key) == Lookup(b, b[0].key) == b[0].count;
    }
    if |a| > 0 && |b| > 0 {
      HeadIsLeastKey(b, a[0].key);
      HeadIsLeastKey(a, b[0].key);
      assert a[0] == b[0];
      forall k
        ensures Lookup(a[1..], k) == Lookup(b[1..], k)
      {
        assert Lookup(a, k) == Lookup(b, k);
        if k == a[0].key {
          LookupBelow(a[1..], k);
          LookupBelow(b[1..], k);
        }
      }
      AscendingUnique(a[1..], b[1..]);
    }
  }

  /** The grouped count depends only on how often each key occurs, not on
      the order of the rows. */
  lemma GroupByKeyReorder(keys1: seq<Option<int>>, keys2: seq<Option<int>>)
    requires multiset(keys1) == multiset(keys2)
    ensures GroupByKey(keys1) == GroupByKey(keys2)
  {
    AscendingUnique(GroupByKey(keys1), GroupByKey(keys2));
  }

  /** A row with an absent key changes no group. */
  lemma GroupByKeySkipsAbsent(keys: seq<Option<int>>)
    ensures GroupByKey(keys + [None]) == GroupByKey(keys)
  {
    var keys' := keys + [None];
    assert forall k :: multiset(keys')[Some(k)] == multiset(keys)[Some(k)];
    AscendingUnique(GroupByKey(keys'), GroupByKey(keys));
  }
}

=== FILE: means.dfy ===
/** Arithmetic means and the numeric conversions applied to them, on exact
    reals: `mean()` (NaN when there is nothing to average), `.round(2)` and
    `int(...)`. */
module Means {
  import opened Seqs

  function Sum(xs: seq<real>): real
    decreases |xs|
  {
    if |xs| == 0 then 0.0 else xs[0] + Sum(xs[1..])
  }

  /** `n` copies of `x` added up. */
  function Times(x: real, n: nat): real
    decreases n
  {
    if n == 0 then 0.0 else x + Times(x, n - 1)
  }

  lemma {:induction false} TimesIsProduct(x: real, n: nat)
    ensures Times(x, n) == x * n as real
    decreases n
  {
    if n > 0 {
      TimesIsProduct(x, n - 1);
      assert x * n as real == x * (n - 1) as real + x;
    }
  }

  lemma {:induction false} TimesDifference(a: real, b: real, n: nat)
    ensures Times(a - b, n) == Times(a, n) - Times(b, n)
    decreases n
  {
    if n > 0 {
      TimesDifference(a, b, n - 1);
    }
  }

  /** Every element of `xs` lies in `[lo, hi]`. */
  ghost predicate Within(xs: seq<real>, lo: real, hi: real) {
    forall i :: 0 <= i < |xs| ==> lo <= xs[i] <= hi
  }

  lemma {:induction false} SumWithin(xs: seq<real>, lo: real, hi: real)
    requires Within(xs, lo, hi)
    ensures |xs| as real * lo <= Sum(xs) <= |xs| as real * hi
    decreases |xs|
  {
    if |xs| > 0 {
      SumWithin(xs[1..], lo, hi);
    }
  }

  /** Position of a smallest element. */
  function ArgMin(xs: seq<real>): (k: int)
    requires |xs| > 0
    ensures 0 <= k < |xs| && forall i :: 0 <= i < |xs| ==> xs[k] <= xs[i]
    decreases |xs|
  {
    if |xs| == 1 then 0
    else
      var k := ArgMin(xs[1..]) + 1;
      if xs[0] <= xs[k] then 0 else k
  }

  /** Position of a largest element. */
  function ArgMax(xs: seq<real>): (k: int)
    requires |xs| > 0
    ensures 0 <= k < |xs| && forall i :: 0 <= i < |xs| ==> xs[i] <= xs[k]
    decreases |xs|
  {
    if |xs| == 1 then 0
    else
      var k := ArgMax(xs[1..]) + 1;
      if xs[k] <= xs[0] then 0 else k
  }

  /** The arithmetic mean; absent (NaN) for an empty column, otherwise the
      value whose copies, one per element, add up to the column's sum, and so
      between the column's smallest and largest value. */
  function Mean(xs: seq<real>): (m: Option<real>)
    ensures m.Some? <==> |xs| > 0
    ensures m.Some? ==> Times(m.value, |xs|) == Sum(xs)
    ensures m.Some? ==> xs[ArgMin(xs)] <= m.value <= xs[ArgMax(xs)]
  {
    if |xs| == 0 then None
    else
      MeanWithin(xs, xs[ArgMin(xs)], xs[ArgMax(xs)]);
      QuotientTimes(Sum(xs), |xs| as real);
      TimesIsProduct(Sum(xs) / |xs| as real, |xs|);
      Some(Sum(xs) / |xs| as real)
  }

  lemma QuotientTimes(s: real, n: real)
    requires n > 0.0
    ensures (s / n) * n == s
  {
  }

  /** A mean never leaves the range of the values it averages. */
  lemma MeanWithin(xs: seq<real>, lo: real, hi: real)
    requires Within(xs, lo, hi)
    requires |xs| > 0
    ensures lo <= Sum(xs) / |xs| as real <= hi
  {
    SumWithin(xs, lo, hi);
    QuotientWithin(Sum(xs), |xs| as real, lo, hi);
  }

  lemma QuotientWithin(s: real, n: real, lo: real, hi: real)
    requires n > 0.0
    requires n * lo <= s <= n * hi
    ensures lo <= s / n <= hi
  {
    var q := s / n;
    assert q * n == s;
    assert (q - lo) * n >= 0.0;
    assert (hi - q) * n >= 0.0;
  }

  function IntToReal(n: int): real {
    n as real
  }

  /** The mean of a column of whole numbers: times the column's length it is
      the column's sum, and it lies between two of the column's values. */
  function IntMean(xs: seq<int>): (m: Option<real>)
    ensures m.Some? <==> |xs| > 0
    ensures m.Some? ==> Times(m.value, |xs|) == Sum(Map(xs, IntToReal))
    ensures m.Some? ==> exists i, j :: 0 <= i < |xs| && 0 <= j < |xs| && xs[i] as real <= m.value <= xs[j] as real
  {
    var reals := Map(xs, IntToReal);
    assert |reals| == |xs|;
    match Mean(reals)
    case None => None
    case Some(mean) =>
      var i, j := ArgMin(reals), ArgMax(reals);
      assert xs[i] as real <= mean <= xs[j] as real;
      Some(mean)
  }

  /** `int(mean)` of a column of whole numbers that are not negative: absent
      when the column is empty (`int(nan)` fails), otherwise a whole number
      between the column's smallest and largest value, and the mean with its
      fraction dropped. */
  function TruncatedMean(xs: seq<int>): (n: Option<int>)
    requires forall i :: 0 <= i < |xs| ==> xs[i] >= 0
    ensures n.Some? <==> |xs| > 0
    ensures n.Some? ==> IntMean(xs).Some? && n.value == Truncate(IntMean(xs).value)
    ensures n.Some? ==> n.value >= 0
    ensures n.Some? ==> exists i, j :: 0 <= i < |xs| && 0 <= j < |xs| && xs[i] <= n.value <= xs[j]
  {
    match IntMean(xs)
    case None => None
    case Some(mean) =>
      var i, j :| 0 <= i < |xs| && 0 <= j < |xs| && xs[i] as real <= mean <= xs[j] as real;
      var n := Truncate(mean);
      assert xs[i] <= n <= xs[j];
      Some(n)
  }

  /** Round half to even, as `numpy.rint` does. */
  function RoundHalfEven(x: real): (n: int)
    ensures x - 0.5 <= n as real <= x + 0.5
    ensures n as real == x - 0.5 || n as real == x + 0.5 ==> n % 2 == 0
  {
    var f := x.Floor;
    var frac := x - f as real;
    if frac < 0.5 then f
    else if frac > 0.5 then f + 1
    else if f % 2 == 0 then f
    else f + 1
  }

  /** `r` is `x` rounded to two decimals: a whole number of hundredths, at
      most half a hundredth from `x`, and an even number of hundredths when
      `x` lies exactly halfway between two of them. */
  ghost predicate RoundedToHundredths(x: real, r: real) {
    var h := r * 100.0;
    h.Floor as real == h
    && x * 100.0 - 0.5 <= h <= x * 100.0 + 0.5
    && (h == x * 100.0 - 0.5 || h == x * 100.0 + 0.5 ==> h.Floor % 2 == 0)
  }

  /** Rounding to two decimals has one answer. */
  lemma RoundedToHundredthsUnique(x: real, r: real, s: real)
    requires RoundedToHundredths(x, r) && RoundedToHundredths(x, s)
    ensures r == s
  {
    var a, b := (r * 100.0).Floor, (s * 100.0).Floor;
    assert a == b;
  }

  /** `numpy.round(x, 2)`: the nearest multiple of 0.01, ties to an even
      number of hundredths. */
  function Round2(x: real): (r: real)
    ensures RoundedToHundredths(x, r)
    ensures x - 0.005 <= r <= x + 0.005
  {
    var n := RoundHalfEven(x * 100.0);
    var r := n as real / 100.0;
    assert r * 100.0 == n as real;
    assert (r * 100.0).Floor == n;
    r
  }

  /** The rounded value is negative exactly when the unrounded one is below
      -0.005; in particular a value in `[-0.005, 0)` rounds to zero. */
  lemma Round2Negative(x: real)
    ensures Round2(x) < 0.0 <==> x < -0.005
  {
    var n := RoundHalfEven(x * 100.0);
    if x < -0.005 {
      assert n as real <= x * 100.0 + 0.5 < 0.0;
    } else {
      assert n as real >= x * 100.0 - 0.5 >= -1.0;
    }
  }

  /** `int(x)`: truncation toward zero. */
  function Truncate(x: real): (n: int)
    ensures 0.0 <= x ==> 0 <= n && n as real <= x < n as real + 1.0
    ensures x < 0.0 ==> n <= 0 && n as real - 1.0 < x <= n as real
  {
    if x >= 0.0 then x.Floor else -((-x).Floor)
  }
}

=== FILE: modes.dfy ===
/** `Series.mode()[0]`: pandas returns every most frequent value, sorted
    ascending, and index 0 takes the smallest of them. */
module Modes {
  import opened Seqs

  /** `le` is a total preorder: any two values compare, and comparison chains. */
  ghost predicate TotalPreorder<T(!new)>(le: (T, T) -> bool) {
    && (forall a, b :: le(a, b) || le(b, a))
    && (forall a, b, c :: le(a, b) && le(b, c) ==> le(a, c))
  }

  /** `le` relates two values both ways only when they are equal. */
  ghost predicate Antisymmetric<T(!new)>(le: (T, T) -> bool) {
    forall a, b :: le(a, b) && le(b, a) ==> a == b
  }

  /** Numeric order, for integer columns. */
  predicate IntLe(a: int, b: int) {
    a <= b
  }

  /** Python's string order: code point by code point, a proper prefix first. */
  predicate StrLe(a: string, b: string)
    decreases |a|
  {
    if |a| == 0 then true
    else if |b| == 0 then false
    else if a[0] != b[0] then a[0] < b[0]
    else StrLe(a[1..], b[1..])
  }

  lemma {:induction false} StrLeTotal(a: string, b: string)
    ensures StrLe(a, b) || StrLe(b, a)
    decreases |a|
  {
    if |a| > 0 && |b| > 0 && a[0] == b[0] {
      StrLeTotal(a[1..], b[1..]);
    }
  }

  lemma {:induction false} StrLeTransitive(a: string, b: string, c: string)
    requires StrLe(a, b) && StrLe(b, c)
    ensures StrLe(a, c)
    decreases |a|
  {
    if |a| > 0 && |b| > 0 && |c| > 0 && a[0] == b[0] && b[0] == c[0] {
      StrLeTransitive(a[1..], b[1..], c[1..]);
    }
  }

  lemma {:induction false} StrLeAntisymmetric(a: string, b: string)
    requires StrLe(a, b) && StrLe(b, a)
    ensures a == b
    decreases |a|
  {
    if |a| > 0 && |b| > 0 {
      StrLeAntisymmetric(a[1..], b[1..]);
      assert a == [a[0]] + a[1..] && b == [b[0]] + b[1..];
    }
  }

  lemma StrLeIsTotalPreorder()
    ensures TotalPreorder(StrLe)
    ensures Antisymmetric(StrLe)
  {
    forall a, b | StrLe(a, b) && StrLe(b, a)
      ensures a == b
    {
      StrLeAntisymmetric(a, b);
    }
    forall a, b
      ensures StrLe(a, b) || StrLe(b, a)
    {
      StrLeTotal(a, b);
    }
    forall a, b, c | StrLe(a, b) && StrLe(b, c)
      ensures StrLe(a, c)
    {
      StrLeTransitive(a, b, c);
    }
  }

  /** The candidate occurring most often in `xs`, the `le`-least among ties. */
  function ModeAmong<T(==,!new)>(xs: seq<T>, cands: seq<T>, le: (T, T) -> bool): (m: T)
    requires |cands| > 0
    requires TotalPreorder(le)
    ensures m in cands
    ensures forall c :: c in cands ==> multiset(xs)[c] <= multiset(xs)[m]
    ensures forall c :: c in cands && multiset(xs)[c] == multiset(xs)[m] ==> le(m, c)
    decreases |cands|
  {
    if |cands| == 1 then
      assert le(cands[0], cands[0]);
      cands[0]
    else
      var best := ModeAmong(xs, cands[1..], le);
      assert cands == [cands[0]] + cands[1..];
      var n, nb := multiset(xs)[cands[0]], multiset(xs)[best];
      if n > nb || (n == nb && le(cands[0], best)) then cands[0] else best
  }

  /** `s.mode()[0]`; absent when the column has no values, where indexing
      the empty result fails. */
  function Mode<T(==,!new)>(xs: seq<T>, le: (T, T) -> bool): (m: Option<T>)
    requires TotalPreorder(le)
    ensures m.Some? <==> |xs| > 0
    ensures m.Some? ==> m.value in xs
    ensures m.Some? ==> forall x :: multiset(xs)[x] <= multiset(xs)[m.value]
    ensures m.Some? ==> forall x :: x in xs && multiset(xs)[x] == multiset(xs)[m.value] ==> le(m.value, x)
  {
    if |xs| == 0 then None
    else
      var m := ModeAmong(xs, xs, le);
      assert forall x :: x !in xs ==> multiset(xs)[x] == 0;
      Some(m)
  }

  /** With an antisymmetric order the selected mode depends only on how
      often each value occurs, not on the order of the column. */
  lemma ModeIgnoresOrder<T(!new)>(xs: seq<T>, ys: seq<T>, le: (T, T) -> bool)
    requires TotalPreorder(le) && Antisymmetric(le)
    requires multiset(xs) == multiset(ys)
    ensures Mode(xs, le) == Mode(ys, le)
  {
    assert |xs| == |multiset(xs)| == |ys|;
    if |xs| > 0 {
      var a, b := Mode(xs, le).value, Mode(ys, le).value;
      assert a in multiset(ys) && b in multiset(xs);
      assert multiset(xs)[a] == multiset(xs)[b];
    }
  }
}

=== FILE: report.dfy ===
/** The figures the script reports from the table: books per finish year and
    per publication year, the most common finish year, the average time to
    finish, the average page count, the rating comparison against other
    readers, and the unique book and author counts and most read author of
    the completed books. */
module Report {
  import opened Seqs
  import opened Books
  import opened Grouping
  import opened Modes
  import opened Means

  // ---------------------------------------------------------------------
  // Columns

  function FinishYearOf(r: Record): Option<int> {
    r.FinishYear()
  }

  function PubYearOf(r: Record): Option<int> {
    r.pubYear
  }

  function PagesOf(r: Record): Option<nat> {
    r.pages
  }

  function AuthorOf(r: Record): string {
    r.author
  }

  function BookIdOf(r: Record): string {
    r.bookId
  }

  function MyRatingOf(r: Record): real {
    r.myRating as real
  }

  function AvgRatingOf(r: Record): real {
    r.avgRating
  }

  /** `Year Finished` as a column: NaN where `Date Read` is absent. */
  function YearColumn(t: seq<Record>): seq<Option<int>> {
    Map(t, FinishYearOf)
  }

  /** `Original Publication Year` as a column. */
  function PubYearColumn(t: seq<Record>): seq<Option<int>> {
    Map(t, PubYearOf)
  }

  predicate HasDateRead(r: Record) {
    r.dateRead.Some?
  }

  predicate HasPubYear(r: Record) {
    r.pubYear.Some?
  }

  /** The rows a key column leaves undefined are exactly the rows `p` rejects. */
  lemma {:induction false} UndefinedKeyRows<A(!new)>(t: seq<A>, f: A -> Option<int>, p: A -> bool)
    requires forall a :: p(a) <==> f(a).Some?
    ensures |Filter(t, p)| == |t| - multiset(Map(t, f))[None]
    decreases |t|
  {
    if |t| > 0 {
      UndefinedKeyRows(t[1..], f, p);
      assert Map(t, f) == [f(t[0])] + Map(t[1..], f);
    }
  }

  // ---------------------------------------------------------------------
  // Grouped counts

  /** `books_per_year`: one (year, count) row per year in which some book was
      finished, years ascending; rows without `Date Read` are in no group and
      the counts add up to the number of rows with one. */
  function BooksPerYear(t: seq<Record>): (g: seq<Bucket>)
    ensures Ascending(g) && Positive(g)
    ensures forall y :: y in Keys(g) <==> exists i :: 0 <= i < |t| && t[i].FinishYear() == Some(y)
    ensures forall i :: 0 <= i < |g| ==> g[i].count == multiset(YearColumn(t))[Some(g[i].key)]
    ensures Total(g) == |Filter(t, HasDateRead)|
  {
    UndefinedKeyRows(t, FinishYearOf, HasDateRead);
    GroupByKey(YearColumn(t))
  }

  /** `books_per_publication_date`: the same grouped count over
      `Original Publication Year`; the 1850 to 2021 window of the chart is
      applied when drawing, so every publication year is kept here. */
  function BooksPerPublicationYear(t: seq<Record>): (g: seq<Bucket>)
    ensures Ascending(g) && Positive(g)
    ensures forall y :: y in Keys(g) <==> exists i :: 0 <= i < |t| && t[i].pubYear == Some(y)
    ensures forall i :: 0 <= i < |g| ==> g[i].count == multiset(PubYearColumn(t))[Some(g[i].key)]
    ensures Total(g) == |Filter(t, HasPubYear)|
  {
    UndefinedKeyRows(t, PubYearOf, HasPubYear);
    GroupByKey(PubYearColumn(t))
  }

  /** Grouping is by key, not position: reordering the rows of the table
      changes neither grouped count. */
  lemma GroupsIgnoreRowOrder(t1: seq<Record>, t2: seq<Record>)
    requires multiset(t1) == multiset(t2)
    ensures BooksPerYear(t1) == BooksPerYear(t2)
    ensures BooksPerPublicationYear(t1) == BooksPerPublicationYear(t2)
  {
    MapPermutation(t1, t2, FinishYearOf);
    GroupByKeyReorder(YearColumn(t1), YearColumn(t2));
    MapPermutation(t1, t2, PubYearOf);
    GroupByKeyReorder(PubYearColumn(t1), PubYearColumn(t2));
  }

  /** A row without `Date Read` adds nothing to the books-per-year count. */
  lemma UnreadRowNotGrouped(t: seq<Record>, r: Record)
    requires r.dateRead.None?
    ensures BooksPerYear(t + [r]) == BooksPerYear(t)
  {
    MapAppend(t, [r], FinishYearOf);
    assert Map([r], FinishYearOf) == [None];
    assert YearColumn(t + [r]) == YearColumn(t) + [None];
    GroupByKeySkipsAbsent(YearColumn(t));
  }

  // ---------------------------------------------------------------------
  // Most common finish year and most read author

  /** `mode_year_finished`: the finish year with the most rows, the earliest
      among equally common years; absent when no row has `Date Read`, where
      the script's `mode()[0]` fails. */
  function ModeYearFinished(t: seq<Record>): (m: Option<int>)
    ensures m.Some? <==> exists i :: 0 <= i < |t| && t[i].dateRead.Some?
    ensures m.Some? ==> Some(m.value) in YearColumn(t)
    ensures m.Some? ==> forall y :: multiset(YearColumn(t))[Some(y)] <= multiset(YearColumn(t))[Some(m.value)]
    ensures m.Some? ==> forall y :: Some(y) in YearColumn(t) && multiset(YearColumn(t))[Some(y)] == multiset(YearColumn(t))[Some(m.value)] ==> m.value <= y
  {
    RowsWithYear(t);
    Mode(Defined(YearColumn(t)), IntLe)
  }

  /** Some row has a `Year Finished` exactly when some row has `Date Read`. */
  lemma RowsWithYear(t: seq<Record>)
    ensures |Defined(YearColumn(t))| > 0 <==> exists i :: 0 <= i < |t| && t[i].dateRead.Some?
  {
    DefinedNonEmpty(YearColumn(t));
    assert forall i :: 0 <= i < |t| ==> (YearColumn(t)[i].Some? <==> t[i].dateRead.Some?);
  }

  /** The most common finish year heads the largest group of the
      books-per-year table, and there is a most common year exactly when
      that table has a row. */
  lemma ModeYearHasLargestGroup(t: seq<Record>)
    ensures ModeYearFinished(t).None? <==> BooksPerYear(t) == []
    ensures ModeYearFinished(t).Some? ==>
      var g := BooksPerYear(t);
      && ModeYearFinished(t).value in Keys(g)
      && forall i :: 0 <= i < |g| ==> g[i].count <= Lookup(g, ModeYearFinished(t).value)
  {
    var g := BooksPerYear(t);
    var m := ModeYearFinished(t);
    if m.Some? {
      assert Some(m.value) in YearColumn(t);
      assert m.value in Keys(g);
      forall i | 0 <= i < |g|
        ensures g[i].count <= Lookup(g, m.value)
      {
        assert Lookup(g, m.value) == multiset(YearColumn(t))[Some(m.value)];
      }
    }
  }

  /** Reordering the rows does not change the most common finish year. */
  lemma ModeYearIgnoresRowOrder(t1: seq<Record>, t2: seq<Record>)
    requires multiset(t1) == multiset(t2)
    ensures ModeYearFinished(t1) == ModeYearFinished(t2)
  {
    MapPermutation(t1, t2, FinishYearOf);
    var y1, y2 := Defined(YearColumn(t1)), Defined(YearColumn(t2));
    assert multiset(y1) == multiset(y2);
    ModeIgnoresOrder(y1, y2, IntLe);
  }

  /** `mode_author`: among the completed books, the author with the most
      rows; ties go to the alphabetically first author (pandas sorts the
      tied values); absent for an empty completed view. */
  function ModeAuthor(t: seq<Record>): (m: Option<string>)
    ensures m.Some? <==> |CompletedView(t)| > 0
    ensures m.Some? ==> exists r :: r in t && r.shelf == "read" && r.author == m.value
    ensures m.Some? ==>
      var authors := Map(CompletedView(t), AuthorOf);
      forall a :: multiset(authors)[a] <= multiset(authors)[m.value]
    ensures m.Some? ==>
      var authors := Map(CompletedView(t), AuthorOf);
      forall a :: a in authors && multiset(authors)[a] == multiset(authors)[m.value] ==> StrLe(m.value, a)
  {
    var authors := Map(CompletedView(t), AuthorOf);
    StrLeIsTotalPreorder();
    var m := Mode(authors, StrLe);
    if m.Some? then
      var k :| 0 <= k < |authors| && authors[k] == m.value;
      assert CompletedView(t)[k] in t;
      m
    else m
  }

  /** Reordering the rows does not change the most read author. */
  lemma ModeAuthorIgnoresRowOrder(t1: seq<Record>, t2: seq<Record>)
    requires multiset(t1) == multiset(t2)
    ensures ModeAuthor(t1) == ModeAuthor(t2)
  {
    var v1, v2 := CompletedView(t1), CompletedView(t2);
    assert multiset(v1) == multiset(v2) by {
      assert forall r :: multiset(v1)[r] == if IsCompleted(r) then multiset(t1)[r] else 0;
      assert forall r :: multiset(v2)[r] == if IsCompleted(r) then multiset(t2)[r] else 0;
    }
    MapPermutation(v1, v2, AuthorOf);
    StrLeIsTotalPreorder();
    ModeIgnoresOrder(Map(v1, AuthorOf), Map(v2, AuthorOf), StrLe);
  }

  // ---------------------------------------------------------------------
  // Unique counts

  /** `u_books`: the number of distinct book ids among the completed books. */
  function UniqueBooks(t: seq<Record>): (n: nat)
    ensures n == |set r | r in CompletedView(t) :: r.bookId|
    ensures n <= |CompletedView(t)|
    ensures n == 0 <==> |CompletedView(t)| == 0
  {
    BookIdValues(CompletedView(t));
    DistinctCount(Map(CompletedView(t), BookIdOf))
  }

  /** `u_authors`: the number of distinct author strings (exact match) among
      the completed books. */
  function UniqueAuthors(t: seq<Record>): (n: nat)
    ensures n == |set r | r in CompletedView(t) :: r.author|
    ensures n <= |CompletedView(t)|
    ensures n == 0 <==> |CompletedView(t)| == 0
  {
    AuthorValues(CompletedView(t));
    DistinctCount(Map(CompletedView(t), AuthorOf))
  }

  /** The values of the `Book Id` column are the book ids of the rows. */
  lemma BookIdValues(v: seq<Record>)
    ensures (set b | b in Map(v, BookIdOf)) == (set r | r in v :: r.bookId)
  {
    var ids := Map(v, BookIdOf);
    forall b | b in ids
      ensures exists r :: r in v && b == r.bookId
    {
      var i :| 0 <= i < |ids| && ids[i] == b;
      assert v[i] in v;
    }
    forall r | r in v
      ensures r.bookId in ids
    {
      var i :| 0 <= i < |v| && v[i] == r;
      assert ids[i] == r.bookId;
    }
  }

  /** The values of the `Author` column are the authors of the rows. */
  lemma AuthorValues(v: seq<Record>)
    ensures (set a | a in Map(v, AuthorOf)) == (set r | r in v :: r.author)
  {
    var authors := Map(v, AuthorOf);
    forall a | a in authors
      ensures exists r :: r in v && a == r.author
    {
      var i :| 0 <= i < |authors| && authors[i] == a;
      assert v[i] in v;
    }
    forall r | r in v
      ensures r.author in authors
    {
      var i :| 0 <= i < |v| && v[i] == r;
      assert authors[i] == r.author;
    }
  }

  // ---------------------------------------------------------------------
  // Means

  /** The `days_to_finish` column of the finished-duration view, which is
      defined on every row of that view. */
  function FinishedDays(t: seq<Record>): (days: seq<int>)
    ensures |days| == |FinishedDurationView(t)|
    ensures forall i :: 0 <= i < |days| ==> FinishedDurationView(t)[i].DaysToFinish() == Some(days[i])
    ensures forall i :: 0 <= i < |days| ==> days[i] >= 0
  {
    var v := FinishedDurationView(t);
    seq(|v|, i requires 0 <= i < |v| => assert v[i] in v; v[i].DaysToFinish().value)
  }

  /** The average of `days_to_finish` over the finished-duration view:
      absent when the view is empty, otherwise the value that, taken once per
      finished book, adds up to the total of the durations; it lies between
      the shortest and the longest duration, so it is never negative. */
  function MeanDaysToFinish(t: seq<Record>): (m: Option<real>)
    ensures m.Some? <==> |FinishedDurationView(t)| > 0
    ensures m.Some? ==> Times(m.value, |FinishedDays(t)|) == Sum(Map(FinishedDays(t), IntToReal))
    ensures m.Some? ==> m.value >= 0.0
    ensures m.Some? ==>
      exists i, j :: 0 <= i < |FinishedDays(t)| && 0 <= j < |FinishedDays(t)| &&
        FinishedDays(t)[i] as real <= m.value <= FinishedDays(t)[j] as real
  {
    var days := FinishedDays(t);
    IntMean(days)
  }

  /** `mean_days_to_finish = int(...)`: the mean truncated to whole days. It
      is absent when the view is empty (`int(nan)` fails) and otherwise a
      whole number of days between the shortest and the longest duration:
      the average with its fraction dropped. */
  function MeanDaysReported(t: seq<Record>): (n: Option<int>)
    ensures n.Some? <==> |FinishedDurationView(t)| > 0
    ensures n.Some? ==> MeanDaysToFinish(t).Some? && n.value == Truncate(MeanDaysToFinish(t).value)
    ensures n.Some? ==> n.value >= 0
    ensures n.Some? ==>
      exists i, j :: 0 <= i < |FinishedDays(t)| && 0 <= j < |FinishedDays(t)| &&
        FinishedDays(t)[i] <= n.value <= FinishedDays(t)[j]
  {
    TruncatedMean(FinishedDays(t))
  }

  /** The `Number of Pages` values present in the table: each page count
      occurs as often as rows carry it, and missing counts are skipped. */
  function PageCounts(t: seq<Record>): (pages: seq<nat>)
    ensures |pages| <= |t|
    ensures forall p :: multiset(pages)[p] == multiset(Map(t, PagesOf))[Some(p)]
    ensures |pages| > 0 <==> exists i :: 0 <= i < |t| && t[i].pages.Some?
  {
    var col := Map(t, PagesOf);
    var pages := Defined(col);
    assert (exists i :: 0 <= i < |t| && t[i].pages.Some?) ==> |pages| > 0 by {
      if i :| 0 <= i < |t| && t[i].pages.Some? {
        assert col[i] == Some(t[i].pages.value);
        assert t[i].pages.value in pages;
      }
    }
    assert |pages| > 0 ==> Some(pages[0]) in col;
    pages
  }

  /** `avg_pages = int(books_df["Number of Pages"].mean())`: the mean skips
      rows without a page count, so it is absent only when no row has one;
      otherwise it is a whole number between the smallest and the largest
      page count, the mean of the page counts with its fraction dropped. */
  function AveragePages(t: seq<Record>): (n: Option<int>)
    ensures n.Some? <==> exists i :: 0 <= i < |t| && t[i].pages.Some?
    ensures n.Some? ==> IntMean(PageCounts(t)).Some? && n.value == Truncate(IntMean(PageCounts(t)).value)
    ensures n.Some? ==>
      exists i, j :: 0 <= i < |PageCounts(t)| && 0 <= j < |PageCounts(t)| &&
        PageCounts(t)[i] <= n.value <= PageCounts(t)[j]
  {
    TruncatedMean(PageCounts(t))
  }

  // ---------------------------------------------------------------------
  // Rating comparison

  /** Mean `My Rating` minus mean `Average Rating` over a view, before
      rounding; absent (NaN) for an empty view. Taken once per row, the
      difference adds up to the sum of the reader's ratings minus the sum of
      the public's. */
  function MeanGap(v: seq<Record>): (d: Option<real>)
    ensures d.Some? <==> |v| > 0
    ensures d.Some? ==> Times(d.value, |v|) == Sum(Map(v, MyRatingOf)) - Sum(Map(v, AvgRatingOf))
  {
    match (Mean(Map(v, MyRatingOf)), Mean(Map(v, AvgRatingOf)))
    case (Some(mine), Some(theirs)) =>
      TimesDifference(mine, theirs, |v|);
      Some(mine - theirs)
    case _ => None
  }

  /** The unrounded difference over the rated view: times the number of
      rated books it is the reader's rating total minus the public's. */
  function RatingGap(t: seq<Record>): (d: Option<real>)
    ensures d.Some? <==> |RatedView(t)| > 0
    ensures d.Some? ==>
      Times(d.value, |RatedView(t)|) == Sum(Map(RatedView(t), MyRatingOf)) - Sum(Map(RatedView(t), AvgRatingOf))
  {
    var v := RatedView(t);
    MeanGap(v)
  }

  /** `avg_difference`: the gap rounded to two decimals, a whole number of
      hundredths nearest to it, ties to even. */
  function AvgDifference(t: seq<Record>): (d: Option<real>)
    ensures d.Some? <==> |RatedView(t)| > 0
    ensures d.Some? ==> RoundedToHundredths(RatingGap(t).value, d.value)
    ensures d.Some? ==> RatingGap(t).value - 0.005 <= d.value <= RatingGap(t).value + 0.005
  {
    match RatingGap(t)
    case None => None
    case Some(gap) => Some(Round2(gap))
  }

  /** `sign`: "bajo" when the rounded difference is negative, "alto"
      otherwise, which includes a difference of zero. With no rated book the
      script stops before choosing a label (the NaN mean has no `.round`), so
      there is none. */
  function RatingLabel(t: seq<Record>): (s: Option<string>)
    ensures s.Some? <==> |RatedView(t)| > 0
    ensures s.Some? ==> s.value == "bajo" || s.value == "alto"
  {
    match AvgDifference(t)
    case None => None
    case Some(d) => if d < 0.0 then Some("bajo") else Some("alto")
  }

  /** The label reads "bajo" exactly when the unrounded gap is below -0.005,
      and "alto" exactly when it is at least -0.005: a gap in [-0.005, 0)
      rounds to zero and is labelled "alto". */
  lemma RatingLabelFromGap(t: seq<Record>)
    ensures RatingLabel(t) == Some("bajo") <==> RatingGap(t).Some? && RatingGap(t).value < -0.005
    ensures RatingLabel(t) == Some("alto") <==> RatingGap(t).Some? && RatingGap(t).value >= -0.005
  {
    if RatingGap(t).Some? {
      Round2Negative(RatingGap(t).value);
    }
  }

  /** The comparison is computed from the rated view alone: appending a row
      with `My Rating` 0 changes neither the difference nor the label. */
  lemma UnratedRowKeepsComparison(t: seq<Record>, r: Record)
    requires r.myRating == 0
    ensures AvgDifference(t + [r]) == AvgDifference(t)
    ensures RatingLabel(t + [r]) == RatingLabel(t)
  {
    AppendUnratedKeepsRatedView(t, r);
    SameRatedViewSameComparison(t + [r], t);
  }

  /** The comparison depends on the table only through its rated view. */
  lemma SameRatedViewSameComparison(t: seq<Record>, u: seq<Record>)
    requires RatedView(t) == RatedView(u)
    ensures AvgDifference(t) == AvgDifference(u)
    ensures RatingLabel(t) == RatingLabel(u)
  {
    assert RatingGap(t) == RatingGap(u);
  }
}

=== FILE: scenario.dfy ===
/** A worked three-row table: two read books (one finished in ten days, one
    on the day it was added) and one book still to read. */
module Scenario {
  import opened Seqs
  import opened Calendar
  import opened Books
  import opened Grouping
  import opened Report
  import opened Means
  import opened Modes

  const First := Record("1", "Austen", "read", Some(CalendarDate(2020, 1, 1)), Some(CalendarDate(2020, 1, 11)),
                        Some(100), Some(2000), 4, 3.5)
  const Second := Record("2", "Borges", "read", Some(CalendarDate(2019, 6, 1)), Some(CalendarDate(2019, 6, 1)),
                         Some(300), Some(1990), 5, 4.0)
  const Third := Record("3", "Calvino", "to-read", Some(CalendarDate(2021, 1, 1)), None,
                        Some(200), Some(2010), 0, 0.0)
  const Sample := [First, Second, Third]

  lemma DaysBefore1970()
    ensures DaysBeforeYear(1970) == 719162
  {
    QuotRem(1969, 4);
    QuotRem(1969, 100);
    QuotRem(1969, 400);
  }

  lemma DaysBefore2000()
    ensures DaysBeforeYear(2000) == 730119
  {
    QuotRem(1999, 4);
    QuotRem(1999, 100);
    QuotRem(1999, 400);
  }

  /** Day numbers are Python's `date.toordinal()` minus one: `toordinal()`
      counts 0001-01-01 as 1 and the day count as 0. 2000 is a leap year, so
      March starts on its 61st day. */
  lemma EpochDayNumber()
    ensures DayNumber(CalendarDate(1970, 1, 1)) == 719162
    ensures DayNumber(CalendarDate(2000, 3, 1)) == 730179
  {
    DaysBefore1970();
    DaysBefore2000();
    QuotRem(2000, 4);
    QuotRem(2000, 400);
  }

  lemma ThirdNotRead()
    ensures !IsCompleted(Third) && !IsFinishedWithDuration(Third) && !IsRated(Third)
  {
    assert |Third.shelf| != |"read"|;
  }

  lemma SampleDays()
    ensures First.DaysToFinish() == Some(10) && Second.DaysToFinish() == Some(0)
  {
  }

  lemma SampleViews()
    ensures FinishedDurationView(Sample) == [First, Second]
    ensures CompletedView(Sample) == [First, Second]
    ensures RatedView(Sample) == [First, Second]
  {
    SampleDays();
    ThirdNotRead();
    assert Sample[1..] == [Second, Third] && Sample[1..][1..] == [Third];
    assert Filter([Third], IsCompleted) == [];
    assert Filter([Second, Third], IsCompleted) == [Second];
    assert Filter([Third], IsFinishedWithDuration) == [];
    assert Filter([Second, Third], IsFinishedWithDuration) == [Second];
    assert Filter([Third], IsRated) == [];
    assert Filter([Second, Third], IsRated) == [Second];
  }

  lemma SampleYearColumn()
    ensures YearColumn(Sample) == [Some(2020), Some(2019), None]
  {
  }

  lemma DefinedYearTail()
    ensures Defined([Some(2019), None]) == [2019]
  {
    assert [Some(2019), None][1..] == [None];
    var none: seq<Option<int>> := [None];
    assert none[1..] == [];
    assert Defined(none) == [];
  }

  lemma DefinedYears()
    ensures Defined([Some(2020), Some(2019), None]) == [2020, 2019]
  {
    DefinedYearTail();
    assert [Some(2020), Some(2019), None][1..] == [Some(2019), None];
  }

  lemma SampleYears()
    ensures Defined(YearColumn(Sample)) == [2020, 2019]
  {
    SampleYearColumn();
    DefinedYears();
  }

  lemma SampleBooksPerYear()
    ensures BooksPerYear(Sample) == [Bucket(2019, 1), Bucket(2020, 1)]
  {
    SampleYears();
    var years := [2020, 2019];
    assert years[..1] == [2020];
    assert GroupCount([2020]) == [Bucket(2020, 1)];
    assert GroupCount(years) == [Bucket(2019, 1), Bucket(2020, 1)];
  }

  lemma SamplePubYearColumn()
    ensures PubYearColumn(Sample) == [Some(2000), Some(1990), Some(2010)]
  {
  }

  lemma DefinedLastPubYear()
    ensures Defined([Some(2010)]) == [2010]
  {
    assert [Some(2010)][1..] == [];
  }

  lemma DefinedLastTwoPubYears()
    ensures Defined([Some(1990), Some(2010)]) == [1990, 2010]
  {
    DefinedLastPubYear();
    assert [Some(1990), Some(2010)][1..] == [Some(2010)];
  }

  lemma DefinedPubYears()
    ensures Defined([Some(2000), Some(1990), Some(2010)]) == [2000, 1990, 2010]
  {
    DefinedLastTwoPubYears();
    assert [Some(2000), Some(1990), Some(2010)][1..] == [Some(1990), Some(2010)];
  }

  lemma GroupOnePubYear()
    ensures GroupCount([2000]) == [Bucket(2000, 1)]
  {
    assert [2000][..0] == [];
  }

  lemma GroupTwoPubYears()
    ensures GroupCount([2000, 1990]) == [Bucket(1990, 1), Bucket(2000, 1)]
  {
    GroupOnePubYear();
    assert [2000, 1990][..1] == [2000];
  }

  lemma InsertAfterLast()
    ensures Insert([Bucket(2000, 1)], 2010) == [Bucket(2000, 1), Bucket(2010, 1)]
  {
    assert [Bucket(2000, 1)][1..] == [];
  }

  lemma InsertAfterBoth()
    ensures Insert([Bucket(1990, 1), Bucket(2000, 1)], 2010) == [Bucket(1990, 1), Bucket(2000, 1), Bucket(2010, 1)]
  {
    InsertAfterLast();
    assert [Bucket(1990, 1), Bucket(2000, 1)][1..] == [Bucket(2000, 1)];
  }

  lemma GroupThreePubYears()
    ensures GroupCount([2000, 1990, 2010]) == [Bucket(1990, 1), Bucket(2000, 1), Bucket(2010, 1)]
  {
    GroupTwoPubYears();
    InsertAfterBoth();
    assert [2000, 1990, 2010][..2] == [2000, 1990];
  }

  lemma SampleBooksPerPublicationYear()
    ensures BooksPerPublicationYear(Sample) == [Bucket(1990, 1), Bucket(2000, 1), Bucket(2010, 1)]
  {
    SamplePubYearColumn();
    DefinedPubYears();
    GroupThreePubYears();
  }

  lemma SampleModeYear()
    ensures ModeYearFinished(Sample) == Some(2019)
  {
    SampleYears();
    var years := [2020, 2019];
    assert multiset(years)[2019] == multiset(years)[2020] == 1;
    assert years[1..] == [2019];
  }

  lemma SampleDuration()
    ensures FinishedDays(Sample) == [10, 0]
    ensures MeanDaysToFinish(Sample) == Some(5.0)
    ensures MeanDaysReported(Sample) == Some(5)
  {
    SampleViews();
    SampleDays();
    assert FinishedDays(Sample) == [10, 0];
    var xs := Map([10, 0], IntToReal);
    assert xs == [10.0, 0.0];
    assert Sum([0.0]) == 0.0;
    assert Sum([10.0, 0.0]) == 10.0;
  }

  lemma SampleRatingColumns()
    ensures Map(RatedView(Sample), MyRatingOf) == [4.0, 5.0]
    ensures Map(RatedView(Sample), AvgRatingOf) == [3.5, 4.0]
  {
    SampleViews();
  }

  lemma SampleRatingMeans()
    ensures Mean([4.0, 5.0]) == Some(4.5)
    ensures Mean([3.5, 4.0]) == Some(3.75)
  {
    assert [4.0, 5.0][1..] == [5.0] && [3.5, 4.0][1..] == [4.0];
    assert Sum([5.0]) == 5.0 && Sum([4.0, 5.0]) == 9.0;
    assert Sum([4.0]) == 4.0 && Sum([3.5, 4.0]) == 7.5;
  }

  lemma SampleRatingGap()
    ensures RatingGap(Sample) == Some(0.75)
  {
    SampleRatingColumns();
    SampleRatingMeans();
  }

  /** 0.75 is already a whole number of hundredths. */
  lemma RoundSample()
    ensures Round2(0.75) == 0.75
  {
    assert 0.75 * 100.0 == 75.0;
    assert RoundHalfEven(75.0) == 75;
  }

  lemma SampleRatings()
    ensures AvgDifference(Sample) == Some(0.75)
    ensures RatingLabel(Sample) == Some("alto")
  {
    SampleRatingGap();
    RoundSample();
  }

  lemma SampleAuthors()
    ensures Map(CompletedView(Sample), AuthorOf) == ["Austen", "Borges"]
  {
    SampleViews();
  }

  /** Two different values are two distinct values. */
  lemma UniquePair(a: string, b: string)
    requires a != b
    ensures Unique([a, b]) == [a, b]
  {
    assert [a, b][..1] == [a];
    assert Unique([a]) == [a];
  }

  lemma SampleUniqueBooks()
    ensures UniqueBooks(Sample) == 2
  {
    SampleViews();
    assert Map([First, Second], BookIdOf) == ["1", "2"];
    assert "1"[0] != "2"[0];
    UniquePair("1", "2");
  }

  lemma SampleUniqueAuthors()
    ensures UniqueAuthors(Sample) == 2
  {
    SampleAuthors();
    assert "Austen"[0] != "Borges"[0];
    UniquePair("Austen", "Borges");
  }

  lemma SampleModeAuthor()
    ensures ModeAuthor(Sample) == Some("Austen")
  {
    SampleAuthors();
    var authors := ["Austen", "Borges"];
    assert authors[0] != authors[1] by {
      assert authors[0][0] != authors[1][0];
    }
    assert authors[1..] == ["Borges"];
    assert multiset(authors)["Austen"] == multiset(authors)["Borges"] == 1;
    assert StrLe("Austen", "Borges");
  }

  lemma SamplePageColumn()
    ensures Map(Sample, PagesOf) == [Some(100), Some(300), Some(200)]
  {
  }

  lemma DefinedLast()
    ensures Defined([Some(200)]) == [200]
  {
    assert [Some(200)][1..] == [];
  }

  lemma DefinedLastTwo()
    ensures Defined([Some(300), Some(200)]) == [300, 200]
  {
    DefinedLast();
    assert [Some(300), Some(200)][1..] == [Some(200)];
  }

  lemma DefinedPages()
    ensures Defined([Some(100), Some(300), Some(200)]) == [100, 300, 200]
  {
    DefinedLastTwo();
    assert [Some(100), Some(300), Some(200)][1..] == [Some(300), Some(200)];
  }

  lemma SamplePageCounts()
    ensures PageCounts(Sample) == [100, 300, 200]
  {
    SamplePageColumn();
    DefinedPages();
  }

  lemma PagesMean()
    ensures IntMean([100, 300, 200]) == Some(200.0)
  {
    assert Map([100, 300, 200], IntToReal) == [100.0, 300.0, 200.0];
    assert Sum([200.0]) == 200.0;
    assert Sum([300.0, 200.0]) == 500.0;
    assert Sum([100.0, 300.0, 200.0]) == 600.0;
  }

  lemma SamplePages()
    ensures AveragePages(Sample) == Some(200)
  {
    SamplePageCounts();
    PagesMean();
  }
}

=== FILE: seqs.dfy ===
/** Sequence helpers shared by the views and reductions: an Option type for
    values pandas would hold as NaN/NaT, row-wise projection, boolean-mask
    filtering, dropping of absent values and the `unique()` of a column. */
module Seqs {

  /** A value that may be absent (NaN or NaT in the dataframe). */
  datatype Option<T> = None | Some(value: T)

  /** `a` can be obtained from `b` by deleting elements, keeping order. */
  ghost predicate IsSubsequence<T>(a: seq<T>, b: seq<T>)
    decreases |b|
  {
    && |a| <= |b|
    && (|a| == 0
        || (a[0] == b[0] && IsSubsequence(a[1..], b[1..]))
        || IsSubsequence(a, b[1..]))
  }

  /** No element occurs twice. */
  ghost predicate NoDuplicates<T>(xs: seq<T>) {
    forall i, j :: 0 <= i < j < |xs| ==> xs[i] != xs[j]
  }

  /** Column projection: one value per row, in row order. */
  function Map<A, B>(xs: seq<A>, f: A -> B): (ys: seq<B>)
    ensures |ys| == |xs|
    ensures forall i :: 0 <= i < |xs| ==> ys[i] == f(xs[i])
  {
    seq(|xs|, i requires 0 <= i < |xs| => f(xs[i]))
  }

  /** Boolean-mask selection `df[mask]`: the rows satisfying `p`, in order,
      each with its original multiplicity. */
  function Filter<T(==,!new)>(xs: seq<T>, p: T -> bool): (ys: seq<T>)
    ensures |ys| <= |xs|
    ensures forall y :: y in ys <==> y in xs && p(y)
    ensures forall y :: multiset(ys)[y] == if p(y) then multiset(xs)[y] else 0
    ensures IsSubsequence(ys, xs)
    decreases |xs|
  {
    if |xs| == 0 then []
    else
      var rest := Filter(xs[1..], p);
      assert xs == [xs[0]] + xs[1..];
      if p(xs[0]) then [xs[0]] + rest else rest
  }

  /** The defined values of a column, in order (what pandas keeps when it
      skips NaN in `mean()`, `mode()` and `groupby`). */
  function Defined<T(==,!new)>(xs: seq<Option<T>>): (ys: seq<T>)
    ensures |ys| == |xs| - multiset(xs)[None]
    ensures forall y :: multiset(ys)[y] == multiset(xs)[Some(y)]
    ensures forall y :: y in ys <==> Some(y) in xs
    decreases |xs|
  {
    if |xs| == 0 then []
    else
      var rest := Defined(xs[1..]);
      assert xs == [xs[0]] + xs[1..];
      match xs[0]
      case None => rest
      case Some(v) => [v] + rest
  }

  /** `Series.unique()`: every value of the column exactly once. */
  function Unique<T(==,!new)>(xs: seq<T>): (u: seq<T>)
    ensures forall x :: x in u <==> x in xs
    ensures NoDuplicates(u)
    ensures |u| <= |xs|
    decreases |xs|
  {
    if |xs| == 0 then []
    else
      var init := xs[..|xs| - 1];
      var last := xs[|xs| - 1];
      assert xs == init + [last];
      var u := Unique(init);
      if last in u then u else u + [last]
  }

  /** Filtering distributes over concatenation of tables. */
  lemma {:induction false} FilterAppend<T(!new)>(xs: seq<T>, ys: seq<T>, p: T -> bool)
    ensures Filter(xs + ys, p) == Filter(xs, p) + Filter(ys, p)
    decreases |xs|
  {
    if |xs| == 0 {
      assert xs + ys == ys;
    } else {
      assert (xs + ys)[1..] == xs[1..] + ys;
      FilterAppend(xs[1..], ys, p);
    }
  }

  /** Projection distributes over concatenation. */
  lemma MapAppend<A, B>(xs: seq<A>, ys: seq<A>, f: A -> B)
    ensures Map(xs + ys, f) == Map(xs, f) + Map(ys, f)
  {
  }

  /** Reordering the rows reorders the projected column the same way, so the
      multiset of projected values does not change. */
  lemma {:induction false} MapPermutation<A, B>(xs: seq<A>, ys: seq<A>, f: A -> B)
    requires multiset(xs) == multiset(ys)
    ensures multiset(Map(xs, f)) == multiset(Map(ys, f))
    decreases |xs|
  {
    if |xs| == 0 {
      assert |ys| == |multiset(ys)| == 0;
    } else {
      var init := xs[..|xs| - 1];
      var last := xs[|xs| - 1];
      assert xs == init + [last];
      assert last in multiset(ys);
      var j :| 0 <= j < |ys| && ys[j] == last;
      var rest := ys[..j] + ys[j + 1..];
      assert ys == ys[..j] + [last] + ys[j + 1..];
      assert multiset(ys) == multiset(ys[..j]) + multiset{last} + multiset(ys[j + 1..]);
      assert multiset(xs) == multiset(init) + multiset{last};
      assert multiset(rest) == multiset(ys[..j]) + multiset(ys[j + 1..]);
      forall x
        ensures multiset(rest)[x] == multiset(init)[x]
      {
        assert multiset(ys)[x] == multiset(ys[..j])[x] + multiset{last}[x] + multiset(ys[j + 1..])[x];
        assert multiset(xs)[x] == multiset(init)[x] + multiset{last}[x];
      }
      assert multiset(rest) == multiset(init);
      MapPermutation(init, rest, f);
      MapAppend(init, [last], f);
      MapAppend(ys[..j], ys[j + 1..], f);
      MapAppend(ys[..j] + [last], ys[j + 1..], f);
      MapAppend(ys[..j], [last], f);
    }
  }

  /** The number of distinct values of a duplicate-free sequence is its length. */
  lemma {:induction false} DistinctLength<T>(u: seq<T>)
    requires NoDuplicates(u)
    ensures |set x | x in u| == |u|
    decreases |u|
  {
    if |u| > 0 {
      var init := u[..|u| - 1];
      var last := u[|u| - 1];
      assert u == init + [last];
      DistinctLength(init);
      assert last !in init;
      assert (set x | x in u) == (set x | x in init) + {last};
    }
  }

  /** `len(s.unique())` is the number of distinct values of the column. */
  lemma UniqueCountsDistinct<T(!new)>(xs: seq<T>)
    ensures |Unique(xs)| == |set x | x in xs|
  {
    var u := Unique(xs);
    DistinctLength(u);
    assert (set x | x in u) == (set x | x in xs);
  }

  /** `len(s.unique())`: the number of distinct values of a column. */
  function DistinctCount<T(==,!new)>(xs: seq<T>): (n: nat)
    ensures n == |set x | x in xs|
    ensures n <= |xs|
    ensures n == 0 <==> |xs| == 0
  {
    UniqueCountsDistinct(xs);
    assert |xs| > 0 ==> xs[0] in Unique(xs);
    |Unique(xs)|
  }

  /** A column has a defined value exactly when some row defines it. */
  lemma DefinedNonEmpty<T(!new)>(xs: seq<Option<T>>)
    ensures |Defined(xs)| > 0 <==> exists i :: 0 <= i < |xs| && xs[i].Some?
  {
    if i :| 0 <= i < |xs| && xs[i].Some? {
      assert xs[i].value in Defined(xs);
    }
    if |Defined(xs)| > 0 {
      assert Some(Defined(xs)[0]) in xs;
    }
  }
}
